=== FILE: README.md ===
# GB-terminal: the command interpreter of `NioServer`, in Dafny

`NioServer` is a small TCP terminal. A client connects, receives a welcome
line and a prompt `$<dir>$: `, and sends `ls`, `cd <dir>`, `cat <file>` or
`exit`. This project models what happens on one read event as a pure step
function:

    Step(currentDir, input, fs) -> Served(newDir, output, closed) | Crashed(fault)

- `input` is the text drained from the socket (`Received(text)`) or end of
  stream (`EndOfStream`, which closes the connection silently).
- `fs` is one snapshot of the filesystem. It is a map from canonical absolute
  paths to `Directory(entries)` or `RegularFile(lines)`.
- The current directory is a single value. This mirrors the server's one
  `rootDir` field: every connection reads it, and a `cd` on any connection
  changes it for all of them. The whole drained buffer is one command.

Files, one module each:

- `optional.dfy` (`Optional`): `Option`.
- `text.dfy` (`Text`): character removal, first-index search,
  `split(" ", 2)`, newline-terminated lines and reading them back.
- `paths.dfy` (`Paths`): absolute paths as segment sequences. It models
  `Path.resolve(String)` and `Path.normalize()` of the Unix path class, and
  the string form shown in the prompt.
- `filesystem.dfy` (`FileSystem`): the snapshot. A lookup walks a path one
  segment at a time, as the operating system does. `isDirectory` and
  `isFile` are defined on top of it.
- `protocol.dfy` (`Protocol`): the `CommandType` literals, the line-break
  stripping, the classification into one command, the reply literals and the
  prompt.
- `terminal.dfy` (`Terminal`): the `ls`, `cd` and `cat` handlers, the step
  function, the accept-time greeting, and the lemmas that relate steps.

Modelling choices:

- Path arguments are parsed as the Unix path class parses them. They are
  split on `/`, and repeated or trailing separators give no empty segment.
  A leading `/` makes the argument absolute, so it replaces the current
  directory. The empty argument resolves to the current directory.
- A NUL character in an argument makes the parser throw. That exception
  escapes the read handler, and the model reports it as `Crashed(InvalidPath)`.
- `normalize` is a left fold with a stack. `.` is dropped, `name/..`
  collapses, and `..` at the root is dropped. The JDK reaches the same
  result for absolute paths with repeated passes.
- Lookups in `fs` follow operating-system resolution without symbolic
  links. Every component passed through must be an existing directory,
  and `..` at the root stays at the root. `FileSystem.LookupNormalizes`
  proves that a successful lookup always lands on `normalize` of the looked-up
  path. So the directory `cd` checks is the one it moves to.
- A regular file is given by its lines, as `Files.lines` reads them. The
  listing of a directory is given by its entry names, in the order
  `Files.list` yields them.
- Listing a current directory that is not a directory throws, and the
  exception escapes the read handler. The model reports `Crashed(CannotList)`.
  In the model, `Terminal.StepKeepsDirectory` shows this cannot happen
  while the filesystem is well formed and the current directory exists.
  The snapshot has no access permissions, so on a real server an
  unlistable directory still crashes `ls` (see "## Left out").

The server keeps one current directory for all connections and treats a
whole read as one command. It does not confine `cd` under the home
directory, and it has no reply for an unknown command; the model follows
the code. An unrecognised message (`ls ` with a trailing space, `cd` without
a space, the empty message) gets the prompt alone.

## Model

| member | source | states |
|---|---|---|
| `Protocol.StripLineBreaks` | src/main/java/NioServer.java:93 | The message handed to matching holds no line feed and no carriage return. |
| `Protocol.StripRemovesLineBreaks` | src/main/java/NioServer.java:93 | The two `replace` passes remove exactly the line breaks; every other character keeps its count. |
| `Text.RemoveAppend` | src/main/java/NioServer.java:93 | Removal is piecewise over concatenation, so the kept characters stay in their original order. |
| `Text.RemoveKeepsOthers` | src/main/java/NioServer.java:93 | Every character that is not removed occurs as often in the message as in the received text. |
| `Text.RemoveTwice` | src/main/java/NioServer.java:93 | Removing `\n` and then `\r` is the same as removing both in one pass. |
| `Protocol.StripAppend` | src/main/java/NioServer.java:93 | The message of a buffer is the messages of its pieces joined. Where a line break falls does not matter. |
| `Protocol.StripKeepsPlain` | src/main/java/NioServer.java:93 | Text without line breaks is matched exactly as received. |
| `Protocol.StripDropsLineEnding` | src/main/java/NioServer.java:93 | A trailing CR LF disappears before matching. |
| `Terminal.LineEndingIgnored` | src/main/java/NioServer.java:93-109 | A command sent with a trailing CR LF behaves exactly like the bare command. |
| `Protocol.Classify` | src/main/java/NioServer.java:95-104 | Each command is selected if and only if its test holds: `ls` and `exit` by equality, `cd ` and `cat ` by prefix. So at most one of the four independent `if`s fires. The argument is the message after the prefix. |
| `Text.SplitOnce` | src/main/java/NioServer.java:128 | `split(" ", 2)` yields the whole string when there is no space. Otherwise it yields a space-free head and the rest, which rejoin to the input. |
| `Text.SplitOnceAfterHead` | src/main/java/NioServer.java:137 | After a `cd ` or `cat ` prefix, the second part is everything after the first space, further spaces included. |
| `Paths.Resolve` | src/main/java/NioServer.java:129 | Under a path encoding that maps every character (UTF-8), `resolve` fails exactly when the argument holds NUL. An absolute argument replaces the directory. Any other argument is appended to it segment by segment. |
| `Paths.Segments` | src/main/java/NioServer.java:129 | Parsing an argument gives only non-empty, separator-free segments. |
| `Paths.SegmentsKeepCharacters` | src/main/java/NioServer.java:129 | The segments hold exactly the argument's non-separator characters, in order. |
| `Paths.SegmentsSplit` | src/main/java/NioServer.java:129 | Every separator ends a segment: `a/b` parses to the segments of `a` followed by those of `b`, so doubled or trailing separators add no segment and never join two names. |
| `Paths.SegmentsOfNameThenRest` | src/main/java/NioServer.java:129 | A name followed by a separator parses to that name, then the segments of the rest. |
| `Paths.SegmentsOfName` | src/main/java/NioServer.java:129 | A plain name resolves to one segment. |
| `Paths.Normalize` | src/main/java/NioServer.java:130 | The normalized path has no `.` or `..` segment and is no longer than its input. |
| `Paths.NormalizeFrom` | src/main/java/NioServer.java:130 | Each step of the fold keeps the accumulated path normal and valid. |
| `Paths.NormalizeFromAppend` | src/main/java/NioServer.java:130 | Normalizing a concatenation is normalizing the second part from the normal form of the first. |
| `Paths.NormalizeFromNormal` | src/main/java/NioServer.java:130 | Plain segments are simply appended. |
| `Paths.NormalizeFixesNormal` | src/main/java/NioServer.java:130 | A normal path is its own normal form. |
| `Paths.NormalizeIdempotent` | src/main/java/NioServer.java:130 | Normalizing twice equals normalizing once. |
| `Paths.NormalizeDropsCurrent` | src/main/java/NioServer.java:130 | A trailing `.` does not move the normal form. Together with `FileSystem.CurrentIsDirectory`, which makes the lookup follow `.`, this gives that `cd .` stays where it is. |
| `Paths.NormalizeParent` | src/main/java/NioServer.java:129-130 | `p/..` of a normal path normalizes to the parent of `p`, or to the root at the root. |
| `Paths.DownThenUp` | src/main/java/NioServer.java:129-130 | Appending a plain name and then `..` returns to a normal starting path. |
| `Paths.Render` | src/main/java/NioServer.java:109 | The string form of the directory starts with `/` and is exactly as long as its names plus one separator per name (`/` alone for the root). With `SegmentsOfRender` this fixes the text to `/a/b`: no doubled and no trailing separator. |
| `Paths.SegmentsOfRender` | src/main/java/NioServer.java:113 | Parsing the directory's string form, as `Paths.get(String.valueOf(rootDir))` does, gives the directory back. |
| `FileSystem.Walk` | src/main/java/NioServer.java:129 | A successful lookup ends on an existing node at a normal path. |
| `FileSystem.WalkSucceeds` | src/main/java/NioServer.java:129 | A walk succeeds if and only if the normal form of every proper prefix of the walked path is a directory and the normal form of the whole path exists, so `.` and `..` are followed and never refused. |
| `FileSystem.NodeAt` | src/main/java/NioServer.java:138 | A node is found exactly when the lookup succeeds, and it is the node stored at the normal form of the looked-up path. |
| `FileSystem.IsDirectory` | src/main/java/NioServer.java:129 | When `isDirectory` holds, the normal form of the path is a directory of the filesystem. |
| `FileSystem.IsFile` | src/main/java/NioServer.java:138 | When `isFile` holds, the normal form of the path is a regular file of the filesystem. |
| `FileSystem.WalkNormalizes` | src/main/java/NioServer.java:129-130 | A successful walk ends on the lexical normal form of the walked path. |
| `FileSystem.LookupNormalizes` | src/main/java/NioServer.java:129-130 | The path `isDirectory` finds is `normalize` of the resolved path, which is the path `cd` moves to. |
| `FileSystem.LookupOfKey` | src/main/java/NioServer.java:113 | In a well-formed filesystem every node is found at its own path. |
| `FileSystem.CurrentIsDirectory` | src/main/java/NioServer.java:129 | `dir/.` is a directory whenever `dir` is an existing directory of a well-formed filesystem. |
| `FileSystem.ParentIsDirectory` | src/main/java/NioServer.java:130 | In a well-formed filesystem the parent of a non-root node is a directory. |
| `Terminal.ListDirectory` | src/main/java/NioServer.java:112-125 | `ls` succeeds exactly when the current directory is a directory of the permission-free snapshot. It writes each entry followed by `\n`, in listing order, and keeps the directory. Otherwise it raises `CannotList`. |
| `Text.Lines` | src/main/java/NioServer.java:114-117 | Written lines end in a newline and are at least as many characters as entries. |
| `Text.SplitLinesOfLines` | src/main/java/NioServer.java:140-142 | Reading the written output back line by line gives the original entries or lines, in order. |
| `Terminal.LsListsEntries` | src/main/java/NioServer.java:112-117 | In an existing directory `ls` writes exactly its entries, one per line, then the prompt, whatever the names hold. When no name holds a newline, the entries read back from the output. |
| `Terminal.ChangeDirectory` | src/main/java/NioServer.java:127-134 | `cd` raises exactly on NUL. It is silent exactly when the argument is `..` or resolves to a directory, and the new directory is then the normalized resolved path, an existing directory unless the argument was `..`. Otherwise the output is `<arg> is not a Directory!\n` and the directory stays. |
| `Terminal.CdDispatch` | src/main/java/NioServer.java:98-99 | A message `cd <arg>` runs the `cd` handler on exactly `arg`. |
| `Terminal.CdIntoName` | src/main/java/NioServer.java:129-130 | `cd name` into an existing subdirectory of a normal directory moves to `dir/name` silently. |
| `Terminal.CdCurrentStays` | src/main/java/NioServer.java:129-130 | `cd .` in an existing directory of a well-formed filesystem is silent and leaves the directory unchanged. |
| `Terminal.CdUpFromName` | src/main/java/NioServer.java:129-130 | `cd ..` from `dir/name` returns to `dir` silently, without consulting the filesystem. |
| `Terminal.CdSucceeds` | src/main/java/NioServer.java:129-130 | A successful `cd` answers with the prompt of the normalized resolved path, and that path is a directory in the filesystem. |
| `Terminal.CdFails` | src/main/java/NioServer.java:131-132 | A failed `cd` writes `<arg> is not a Directory!\n` and the unchanged prompt. |
| `Terminal.CdDown` | src/main/java/NioServer.java:127-130 | The message `cd name`, for a plain name of an existing subdirectory, moves one level down and prints only the prompt. |
| `Terminal.CdUp` | src/main/java/NioServer.java:127-130 | The message `cd ..` in `dir/name` returns to `dir` and prints only the prompt. |
| `Terminal.CdIntoThenBack` | src/main/java/NioServer.java:127-134 | In a well-formed filesystem, `cd name` into an existing subdirectory followed by `cd ..` restores the original directory. Both steps print only the prompt. |
| `Terminal.ParentStaysDirectory` | src/main/java/NioServer.java:129-130 | `cd ..` from an existing directory of a well-formed filesystem reaches an existing directory. |
| `Terminal.ShowFile` | src/main/java/NioServer.java:136-153 | `cat` raises exactly on NUL and never moves the directory. On a regular file it writes that file's lines, each followed by `\n`. On anything else it writes `<arg> is not a file. Cannot read!\n`. |
| `Terminal.CatShowsFile` | src/main/java/NioServer.java:138-146 | `cat` of a regular file writes its lines in file order, then the unchanged prompt. |
| `Terminal.CatRejectsNonFile` | src/main/java/NioServer.java:150-151 | `cat` of anything else writes exactly the error line, then the unchanged prompt. |
| `Terminal.Finish` | src/main/java/NioServer.java:109 | After a handler, the output is exactly the handler's output followed by the prompt of the directory it left: prefix, suffix and total length are fixed. |
| `Terminal.Step` | src/main/java/NioServer.java:71-110 | End of stream closes silently. `exit` writes exactly the farewell, closes, and keeps the directory. Every other served step ends with the prompt of the resulting directory. Only `cd` changes the directory. An unrecognised message gets the prompt alone. The step crashes exactly on `ls` in a non-directory or NUL in a `cd`/`cat` argument. |
| `Terminal.StepKeepsDirectory` | src/main/java/NioServer.java:112-134 | In the model's permission-free snapshot, when the filesystem is well formed an existing current directory stays an existing directory after any step, and `ls` never crashes. |
| `Terminal.Accept` | src/main/java/NioServer.java:67-68 | A new connection receives the welcome line followed by the prompt of the current directory, which is unchanged. |
| `Protocol.Prompt` | src/main/java/NioServer.java:109 | The prompt is framed by `$` and `$: `. |
| `Protocol.ReadPromptOfPrompt` | src/main/java/NioServer.java:109 | The prompt reads back to the directory it shows, so it names the current directory faithfully. |

## Left out

- The selector loop, channel registration, non-blocking reads and
  `ByteBuffer` handling (src/main/java/NioServer.java:36-62, 72-91). They
  are I/O plumbing. The drained text is a parameter, and end of stream is
  the `EndOfStream` input. Text read before an end of stream in the same
  event is discarded, as in the source.
- The byte-to-char cast and UTF-8 encoding of replies (lines 67-68, 88,
  105, 109, 116-117, 132, 142, 151). Text is modelled as Dafny strings.
- Paths.Resolve: assumes the platform path encoding can represent every
  character (UTF-8), so NUL is the only character it rejects. Under an
  ASCII-only locale, the cast at line 88 maps bytes of 0x80 and above to
  U+FF80..U+FFFF. `UnixPath` then cannot encode them and throws
  `InvalidPathException`, so `cd café` or `cat café` would crash the server
  as NUL does. The model accepts such an argument.
- Exceptions raised while the listing or file stream is consumed, or while
  writing to the socket (lines 118-120, 143-148). These are host-library
  failures. The model assumes every listed entry and every file line can be
  read and written.
- Access permissions. The snapshot records none, so in the model every
  directory can be searched and listed and every regular file can be read.
  Three source behaviours are therefore not modelled:
  - `isDirectory()` and `isFile()` (lines 129, 138) return false when a
    path component cannot be searched.
  - `cd` into a directory that can be searched but not read succeeds. A
    later `ls` makes `Files.list` throw `AccessDeniedException`, which
    lines 122-123 wrap in a `RuntimeException` that stops the server.
  - `cat` of an unreadable file: `Files.lines` throws, lines 147-148 catch
    it, and only the prompt follows.
- Symbolic links, Windows path syntax, and filesystem changes during one
  step. The filesystem is one snapshot per step, and successive steps may
  be given different snapshots.
- Two things come from outside the model. The initial directory
  (`user.home`, line 32) is a parameter. What the server's `main` does with
  an exception escaping the loop is not part of this model.
- The `ArrayIndexOutOfBoundsException` that `strArray[1]` could raise
  cannot happen. The `cd ` and `cat ` prefixes guarantee a space, and
  `Protocol.Classify` only reaches the argument under them.
- Directory entry order is whatever the filesystem snapshot lists. No
  sorting is assumed.

=== FILE: filesystem.dfy ===
/** The filesystem the server reads, as one immutable snapshot: the node at
    each canonical absolute path. Lookups walk a path one segment at a time as
    the operating system does: every component passed through must be an
    existing directory, `.` stays put, `..` goes up and stays at the root.
    Symbolic links are not modelled. */
module FileSystem {
  import opened Optional
  import opened Paths

  datatype Node =
    | Directory(entries: seq<Name>)
    | RegularFile(lines: seq<string>)

  /** Nodes keyed by normal absolute paths. */
  type Tree = map<Path, Node>

  /** The root is a directory, every key is a normal path, and the parent of
      every other key is a directory. */
  ghost predicate WellFormed(fs: Tree) {
    && [] in fs && fs[[]].Directory?
    && (forall p :: p in fs ==> IsNormal(p))
    && (forall p, n :: p + [n] in fs ==> p in fs && fs[p].Directory?)
  }

  /** The parent of a non-root node is a directory. */
  lemma ParentIsDirectory(fs: Tree, p: Path)
    requires WellFormed(fs) && p in fs && p != []
    ensures p[..|p| - 1] in fs && fs[p[..|p| - 1]].Directory?
  {
    assert p == p[..|p| - 1] + [p[|p| - 1]];
  }

  /** Walks `rest` starting in `cur`; the answer is the canonical path reached. */
  function Walk(fs: Tree, cur: Path, rest: Path): (r: Option<Path>)
    requires IsNormal(cur)
    ensures r.Some? ==> r.value in fs && IsNormal(r.value)
    decreases |rest|
  {
    if rest == [] then (if cur in fs then Some(cur) else None)
    else if cur !in fs || !fs[cur].Directory? then None
    else Walk(fs, Enter(cur, rest[0]), rest[1..])
  }

  /** The canonical path an absolute path leads to, if any. */
  function Lookup(fs: Tree, p: Path): Option<Path> {
    Walk(fs, [], p)
  }

  /** What `toFile()` finds at `p`: the node stored at the normal form of
      `p`, when the walk to it succeeds. */
  function NodeAt(fs: Tree, p: Path): (r: Option<Node>)
    ensures r.Some? <==> Lookup(fs, p).Some?
    ensures r.Some? ==> Normalize(p) in fs && r.value == fs[Normalize(p)]
  {
    LookupNormalizes(fs, p);
    match Lookup(fs, p)
    case None => None
    case Some(c) => Some(fs[c])
  }

  /** `toFile().isDirectory()`. */
  predicate IsDirectory(fs: Tree, p: Path)
    ensures IsDirectory(fs, p) ==> Normalize(p) in fs && fs[Normalize(p)].Directory?
  {
    NodeAt(fs, p).Some? && NodeAt(fs, p).value.Directory?
  }

  /** `toFile().isFile()`. */
  predicate IsFile(fs: Tree, p: Path)
    ensures IsFile(fs, p) ==> Normalize(p) in fs && fs[Normalize(p)].RegularFile?
  {
    NodeAt(fs, p).Some? && NodeAt(fs, p).value.RegularFile?
  }

  /** A walk that succeeds ends on the lexical normal form of the walked
      path, so the operating system and `normalize` agree whenever the
      lookup succeeds. */
  lemma {:induction false} WalkNormalizes(fs: Tree, cur: Path, rest: Path)
    requires IsNormal(cur)
    ensures Walk(fs, cur, rest).Some? ==> Walk(fs, cur, rest).value == NormalizeFrom(cur, rest)
    decreases |rest|
  {
    if rest != [] && cur in fs && fs[cur].Directory? {
      WalkNormalizes(fs, Enter(cur, rest[0]), rest[1..]);
    }
  }

  /** When a walk succeeds: every point it passes through, the normal form of
      each prefix of the walked path, is a directory, and the normal form of
      the whole path exists. So `.` and `..` are followed, never refused. */
  lemma {:induction false} WalkSucceeds(fs: Tree, cur: Path, rest: Path)
    requires IsNormal(cur)
    ensures Walk(fs, cur, rest).Some? <==>
              (forall k :: 0 <= k < |rest| ==>
                 NormalizeFrom(cur, rest[..k]) in fs && fs[NormalizeFrom(cur, rest[..k])].Directory?)
              && NormalizeFrom(cur, rest) in fs
    decreases |rest|
  {
    if rest != [] {
      var next := Enter(cur, rest[0]);
      WalkSucceeds(fs, next, rest[1..]);
      assert rest[..0] == [];
      forall k | 0 <= k < |rest| - 1
        ensures NormalizeFrom(cur, rest[..k + 1]) == NormalizeFrom(next, rest[1..][..k])
      {
        assert rest[..k + 1][0] == rest[0];
        assert rest[..k + 1][1..] == rest[1..][..k];
      }
      var passes := forall k :: 0 <= k < |rest| ==>
        NormalizeFrom(cur, rest[..k]) in fs && fs[NormalizeFrom(cur, rest[..k])].Directory?;
      var passesNext := forall k :: 0 <= k < |rest| - 1 ==>
        NormalizeFrom(next, rest[1..][..k]) in fs && fs[NormalizeFrom(next, rest[1..][..k])].Directory?;
      if passes {
        forall k | 0 <= k < |rest| - 1
          ensures NormalizeFrom(next, rest[1..][..k]) in fs && fs[NormalizeFrom(next, rest[1..][..k])].Directory?
        {
          assert NormalizeFrom(cur, rest[..k + 1]) == NormalizeFrom(next, rest[1..][..k]);
        }
      }
      if cur in fs && fs[cur].Directory? && passesNext {
        forall k | 0 <= k < |rest|
          ensures NormalizeFrom(cur, rest[..k]) in fs && fs[NormalizeFrom(cur, rest[..k])].Directory?
        {
          if k > 0 {
            assert NormalizeFrom(cur, rest[..k]) == NormalizeFrom(next, rest[1..][..k - 1]);
          }
        }
      }
    }
  }

  lemma LookupNormalizes(fs: Tree, p: Path)
    ensures Lookup(fs, p).Some? ==> Lookup(fs, p).value == Normalize(p)
  {
    WalkNormalizes(fs, [], p);
  }

  /** Every proper prefix of a key of a well-formed tree is a directory. */
  lemma {:induction false} AncestorIsDirectory(fs: Tree, p: Path, k: nat)
    requires WellFormed(fs) && p in fs && k < |p|
    ensures p[..k] in fs && fs[p[..k]].Directory?
    decreases |p|
  {
    var q := p[..|p| - 1];
    ParentIsDirectory(fs, p);
    if k < |q| {
      AncestorIsDirectory(fs, q, k);
      assert q[..k] == p[..k];
    }
  }

  lemma {:induction false} WalkAlong(fs: Tree, p: Path, k: nat)
    requires WellFormed(fs) && p in fs && k <= |p|
    ensures IsNormal(p[..k]) && Walk(fs, p[..k], p[k..]) == Some(p)
    decreases |p| - k
  {
    if k < |p| {
      AncestorIsDirectory(fs, p, k);
      assert p[k] != Current && p[k] != Parent;
      assert Enter(p[..k], p[k]) == p[..k + 1];
      WalkAlong(fs, p, k + 1);
      assert p[k..][1..] == p[k + 1..];
    } else {
      assert p[..k] == p;
    }
  }

  /** In a well-formed tree every node is found at its own path. */
  lemma LookupOfKey(fs: Tree, p: Path)
    requires WellFormed(fs) && p in fs
    ensures Lookup(fs, p) == Some(p)
    ensures NodeAt(fs, p) == Some(fs[p])
  {
    WalkAlong(fs, p, 0);
    assert p[..0] == [] && p[0..] == p;
  }

  /** `dir/.` is a directory whenever `dir` is: the walk follows `.` and
      stays in `dir`. */
  lemma CurrentIsDirectory(fs: Tree, dir: Path)
    requires WellFormed(fs) && dir in fs && fs[dir].Directory?
    ensures IsDirectory(fs, dir + [Current])
  {
    var p := dir + [Current];
    forall k | 0 <= k < |p|
      ensures NormalizeFrom([], p[..k]) in fs && fs[NormalizeFrom([], p[..k])].Directory?
    {
      assert p[..k] == dir[..k];
      NormalizeFromNormal([], dir[..k]);
      assert [] + dir[..k] == dir[..k];
      if k < |dir| {
        AncestorIsDirectory(fs, dir, k);
      } else {
        assert dir[..k] == dir;
      }
    }
    NormalizeDropsCurrent(dir);
    NormalizeFixesNormal(dir);
    WalkSucceeds(fs, [], p);
    LookupNormalizes(fs, p);
  }
}

=== FILE: optional.dfy ===
/** Optional results: a path argument the parser rejects, a lookup that
    finds nothing, a prompt that does not parse. */
module Optional {

  datatype Option<+T> = None | Some(value: T)
}

=== FILE: paths.dfy ===
/** Absolute paths as sequences of name segments, with the two operations of
    Java's Unix path class the server uses: `resolve` against a string
    argument and `normalize`, plus the string form the prompt shows. */
module Paths {
  import opened Optional
  import opened Text

  type Name = string

  /** An absolute path, as its segments from the root; the root is `[]`. */
  type Path = seq<Name>

  const Separator: char := '/'
  const Nul: char := '\0'
  const Current: Name := "."
  const Parent: Name := ".."

  /** A segment as the path parser produces it: non-empty, no separator. */
  predicate IsName(n: Name) {
    n != [] && Separator !in n
  }

  predicate ValidPath(p: Path) {
    forall i :: 0 <= i < |p| ==> IsName(p[i])
  }

  /** No `.` and no `..` segment is left. */
  predicate IsNormal(p: Path) {
    forall i :: 0 <= i < |p| ==> p[i] != Current && p[i] != Parent
  }

  /** The segments of a path string: repeated and trailing separators give no
      empty segment, and a leading separator is not a segment. */
  function Segments(s: string): (r: Path)
    ensures ValidPath(r)
    decreases |s|
  {
    if s == [] then []
    else if s[0] == Separator then Segments(s[1..])
    else
      var k := IndexOrEnd(s, Separator);
      [s[..k]] + Segments(s[k..])
  }

  /** The segments hold exactly the characters of the string that are not
      separators, in their original order. */
  lemma {:induction false} SegmentsKeepCharacters(s: string)
    ensures Concat(Segments(s)) == Remove(s, {Separator})
    decreases |s|
  {
    if s == [] {
    } else if s[0] == Separator {
      SegmentsKeepCharacters(s[1..]);
    } else {
      var k := IndexOrEnd(s, Separator);
      assert s == s[..k] + s[k..];
      RemoveAppend(s[..k], s[k..], {Separator});
      RemoveNothing(s[..k], {Separator});
      SegmentsKeepCharacters(s[k..]);
      assert ([s[..k]] + Segments(s[k..]))[1..] == Segments(s[k..]);
    }
  }

  /** Each separator ends a segment: parsing `a/b` gives the segments of `a`
      followed by those of `b`, so repeated or trailing separators add no
      segment and never join two names. */
  lemma {:induction false} SegmentsSplit(a: string, b: string)
    ensures Segments(a + [Separator] + b) == Segments(a) + Segments(b)
    decreases |a|
  {
    var s := a + [Separator] + b;
    if a == [] {
      assert s == [Separator] + b;
      assert s[1..] == b;
    } else if a[0] == Separator {
      assert s[1..] == a[1..] + [Separator] + b;
      SegmentsSplit(a[1..], b);
    } else {
      var k := IndexOrEnd(a, Separator);
      if k < |a| {
        IndexOrEndOfPrefix(a, [Separator] + b, Separator);
        assert a + [Separator] + b == a + ([Separator] + b);
        assert s[..k] == a[..k];
        assert s[k..] == a[k..] + [Separator] + b;
        SegmentsSplit(a[k..], b);
      } else {
        SegmentsOfNameThenRest(a, b);
        SegmentsOfName(a);
      }
    }
  }

  /** A separator found within `a` is found at the same place in `a + t`. */
  lemma IndexOrEndOfPrefix(a: string, t: string, c: char)
    requires IndexOrEnd(a, c) < |a|
    ensures IndexOrEnd(a + t, c) == IndexOrEnd(a, c)
  {
    var k := IndexOrEnd(a, c);
    assert (a + t)[k] == c;
  }

  /** A name followed by a separator is one segment, then the rest. */
  lemma SegmentsOfNameThenRest(a: string, b: string)
    requires IsName(a)
    ensures Segments(a + [Separator] + b) == [a] + Segments(b)
  {
    var s := a + [Separator] + b;
    SplitOnceAfterHead(s, a, Separator);
    var i := IndexOrEnd(s, Separator);
    assert i == |a|;
    assert s[..i] == a;
    assert s[i..] == [Separator] + b;
    assert s[i..][1..] == b;
  }

  /** A single name parses to itself. */
  lemma SegmentsOfName(n: Name)
    requires IsName(n)
    ensures Segments(n) == [n]
  {
    var k := IndexOrEnd(n, Separator);
    assert n[..k] == n;
    assert n[k..] == [];
  }

  /** The string form of an absolute path: `/` for the root, otherwise each
      segment preceded by a separator. */
  function Render(p: Path): (s: string)
    ensures s != [] && s[0] == Separator
    ensures |s| == if p == [] then 1 else |p| + |Concat(p)|
  {
    if p == [] then [Separator] else RenderNames(p)
  }

  /** One separator before each segment and none after the last: the
      length is the segments' characters plus one separator per segment. */
  function RenderNames(p: Path): (s: string)
    ensures p != [] ==> s != [] && s[0] == Separator
    ensures |s| == |p| + |Concat(p)|
  {
    if p == [] then "" else [Separator] + p[0] + RenderNames(p[1..])
  }

  lemma {:induction false} SegmentsOfRenderNames(p: Path)
    requires ValidPath(p)
    ensures Segments(RenderNames(p)) == p
  {
    if p != [] {
      var s := RenderNames(p);
      var rest := RenderNames(p[1..]);
      assert s == [Separator] + (p[0] + rest);
      assert s[1..] == p[0] + rest;
      var t := p[0] + rest;
      assert t[0] == p[0][0];
      assert t[0] != Separator;
      if rest == [] {
        assert t == p[0];
        SegmentsOfName(p[0]);
      } else {
        SplitOnceAfterHead(t, p[0], Separator);
        var k := IndexOrEnd(t, Separator);
        assert t[..k] == p[0];
        assert t[k..] == rest;
      }
      SegmentsOfRenderNames(p[1..]);
    }
  }

  /** Parsing the string form of a path gives the path back, so the string
      form identifies the directory. */
  lemma SegmentsOfRender(p: Path)
    requires ValidPath(p)
    ensures Segments(Render(p)) == p
  {
    if p == [] {
      assert Render(p)[1..] == [];
    } else {
      SegmentsOfRenderNames(p);
    }
  }

  /** `dir.resolve(arg)`: an argument starting with a separator is an absolute
      path and replaces `dir`; any other argument is appended to `dir` (the
      empty argument gives `dir` itself). A NUL character makes the parser
      reject the argument. */
  function Resolve(dir: Path, arg: string): (r: Option<Path>)
    ensures r.None? <==> Nul in arg
    ensures r.Some? && arg != [] && arg[0] == Separator ==> r.value == Segments(arg)
    ensures r.Some? && (arg == [] || arg[0] != Separator) ==> dir <= r.value && r.value[|dir|..] == Segments(arg)
  {
    if Nul in arg then None
    else if arg != [] && arg[0] == Separator then Some(Segments(arg))
    else Some(dir + Segments(arg))
  }

  /** One segment applied to a normalized prefix: `.` stays, `..` goes up
      (staying at the root when already there), any other name goes down. */
  function Enter(acc: Path, n: Name): (r: Path)
    ensures n == Parent ==> |r| == if acc == [] then 0 else |acc| - 1
  {
    if n == Current then acc
    else if n == Parent then (if acc == [] then [] else acc[..|acc| - 1])
    else acc + [n]
  }

  function NormalizeFrom(acc: Path, rest: Path): (r: Path)
    requires IsNormal(acc)
    ensures IsNormal(r)
    ensures ValidPath(acc) && ValidPath(rest) ==> ValidPath(r)
    ensures |r| <= |acc| + |rest|
    decreases |rest|
  {
    if rest == [] then acc
    else NormalizeFrom(Enter(acc, rest[0]), rest[1..])
  }

  /** `path.normalize()` for an absolute path: `.` segments are dropped,
      each `name/..` pair collapses, and `..` at the root is dropped. */
  function Normalize(p: Path): (r: Path)
    ensures IsNormal(r)
    ensures ValidPath(p) ==> ValidPath(r)
    ensures |r| <= |p|
  {
    NormalizeFrom([], p)
  }

  lemma {:induction false} NormalizeFromAppend(acc: Path, a: Path, b: Path)
    requires IsNormal(acc)
    ensures NormalizeFrom(acc, a + b) == NormalizeFrom(NormalizeFrom(acc, a), b)
    decreases |a|
  {
    if a == [] {
      assert a + b == b;
    } else {
      assert (a + b)[0] == a[0];
      assert (a + b)[1..] == a[1..] + b;
      NormalizeFromAppend(Enter(acc, a[0]), a[1..], b);
    }
  }

  /** Segments that are already plain names are simply appended. */
  lemma {:induction false} NormalizeFromNormal(acc: Path, rest: Path)
    requires IsNormal(acc) && IsNormal(rest)
    ensures NormalizeFrom(acc, rest) == acc + rest
    decreases |rest|
  {
    if rest == [] {
      assert acc + rest == acc;
    } else {
      assert rest[0] != Current && rest[0] != Parent;
      NormalizeFromNormal(acc + [rest[0]], rest[1..]);
      assert acc + [rest[0]] + rest[1..] == acc + rest;
    }
  }

  /** A normal path is its own normal form. */
  lemma NormalizeFixesNormal(p: Path)
    requires IsNormal(p)
    ensures Normalize(p) == p
  {
    NormalizeFromNormal([], p);
  }

  /** Normalizing twice is normalizing once. */
  lemma NormalizeIdempotent(p: Path)
    ensures Normalize(Normalize(p)) == Normalize(p)
  {
    NormalizeFixesNormal(Normalize(p));
  }

  /** A trailing `.` leaves the normal form where it was. */
  lemma NormalizeDropsCurrent(p: Path)
    ensures Normalize(p + [Current]) == Normalize(p)
  {
    NormalizeFromAppend([], p, [Current]);
  }

  /** Normalizing `p/..` for a normal `p` gives the parent of `p`, or the
      root when `p` is the root. */
  lemma NormalizeParent(p: Path)
    requires IsNormal(p)
    ensures Normalize(p + [Parent]) == if p == [] then [] else p[..|p| - 1]
  {
    NormalizeFromAppend([], p, [Parent]);
    NormalizeFromNormal([], p);
    assert [] + p == p;
  }

  /** Going down into a plain name and then up again returns to a normal
      starting path. */
  lemma DownThenUp(dir: Path, n: Name)
    requires IsNormal(dir) && IsName(n) && n != Current && n != Parent
    ensures Normalize(dir + [n]) == dir + [n]
    ensures Normalize(Normalize(dir + [n]) + [Parent]) == dir
  {
    NormalizeFixesNormal(dir + [n]);
    NormalizeParent(dir + [n]);
    assert (dir + [n])[..|dir|] == dir;
  }
}

=== FILE: protocol.dfy ===
/** The text protocol of the terminal: the four command literals, how a
    received buffer becomes one command, and the fixed reply texts. */
module Protocol {
  import opened Optional
  import opened Text
  import opened Paths

  /** The literals of the server's `CommandType`: `ls` and `exit` must match
      the whole message, `cd ` and `cat ` are prefixes. */
  const LsCommand: string := "ls"
  const CdPrefix: string := "cd "
  const CatPrefix: string := "cat "
  const ExitCommand: string := "exit"

  const Welcome: string := "---Welcome in my Terminal!---\n"
  const Farewell: string := "---Thank you. Terminal is closed. Bye.---\n"
  const NotADirectory: string := " is not a Directory!\n"
  const NotAFile: string := " is not a file. Cannot read!\n"

  const Space: char := ' '
  const LineBreaks: set<char> := {'\n', '\r'}

  /** The command a message selects; `NoCommand` for a message matching no
      literal, which the server answers with the prompt alone. */
  datatype Command =
    | Ls
    | Cd(arg: string)
    | Cat(arg: string)
    | Exit
    | NoCommand

  /** The received text with every line feed removed and then every carriage
      return removed, as the server does before matching. */
  function StripLineBreaks(text: string): (msg: string)
    ensures forall i :: 0 <= i < |msg| ==> msg[i] !in LineBreaks
  {
    RemoveTwice(text, {'\n'}, {'\r'});
    assert {'\n'} + {'\r'} == LineBreaks;
    Remove(Remove(text, {'\n'}), {'\r'})
  }

  /** The two passes remove exactly the line breaks: every other character is
      kept, in its original order, since removal works piecewise. */
  lemma StripRemovesLineBreaks(text: string)
    ensures StripLineBreaks(text) == Remove(text, LineBreaks)
    ensures forall c :: c !in LineBreaks ==> multiset(StripLineBreaks(text))[c] == multiset(text)[c]
  {
    RemoveTwice(text, {'\n'}, {'\r'});
    assert {'\n'} + {'\r'} == LineBreaks;
    forall c | c !in LineBreaks
      ensures multiset(StripLineBreaks(text))[c] == multiset(text)[c]
    {
      RemoveKeepsOthers(text, LineBreaks, c);
    }
  }

  /** A message without line breaks is matched as it is. */
  lemma StripKeepsPlain(msg: string)
    requires forall i :: 0 <= i < |msg| ==> msg[i] !in LineBreaks
    ensures StripLineBreaks(msg) == msg
  {
    StripRemovesLineBreaks(msg);
    RemoveNothing(msg, LineBreaks);
  }

  /** A trailing CR LF disappears before matching. */
  lemma StripDropsLineEnding(text: string)
    ensures StripLineBreaks(text + "\r\n") == StripLineBreaks(text)
  {
    StripAppend(text, "\r\n");
    StripRemovesLineBreaks("\r\n");
    assert Remove("\r\n", LineBreaks) == [];
    assert StripLineBreaks(text) + [] == StripLineBreaks(text);
  }

  /** Line breaks anywhere in the buffer are invisible to matching: a buffer
      is the same message as its pieces with the line breaks taken out. */
  lemma StripAppend(a: string, b: string)
    ensures StripLineBreaks(a + b) == StripLineBreaks(a) + StripLineBreaks(b)
  {
    StripRemovesLineBreaks(a + b);
    StripRemovesLineBreaks(a);
    StripRemovesLineBreaks(b);
    RemoveAppend(a, b, LineBreaks);
  }

  /** `msg.split(" ", 2)[1]`: what follows the first space. */
  function Argument(msg: string): string
    requires Space in msg
  {
    SplitOnce(msg, Space)[1]
  }

  /** The four tests of the server, one constructor each. The tests cannot
      overlap, so the server's chain of independent `if`s runs at most one
      handler; the argument of `cd` and `cat` is the message after the
      prefix, further spaces included. */
  function Classify(msg: string): (c: Command)
    ensures c == Ls <==> msg == LsCommand
    ensures c.Cd? <==> CdPrefix <= msg
    ensures c.Cd? ==> c.arg == msg[|CdPrefix|..]
    ensures c.Cat? <==> CatPrefix <= msg
    ensures c.Cat? ==> c.arg == msg[|CatPrefix|..]
    ensures c == Exit <==> msg == ExitCommand
  {
    if msg == LsCommand then Ls
    else if CdPrefix <= msg then
      SplitOnceAfterHead(msg, "cd", Space);
      Cd(Argument(msg))
    else if CatPrefix <= msg then
      SplitOnceAfterHead(msg, "cat", Space);
      Cat(Argument(msg))
    else if msg == ExitCommand then Exit
    else NoCommand
  }

  /** The prompt naming the current directory: `$<dir>$: `. */
  function Prompt(dir: Path): (s: string)
    ensures |s| >= 5 && s[0] == '$' && s[|s| - 3..] == "$: "
  {
    "$" + Render(dir) + "$: "
  }

  /** Recovers the directory from a prompt, as a client reading the prompt
      would. */
  function ReadPrompt(s: string): Option<Path> {
    if |s| >= 4 && s[0] == '$' && s[|s| - 3..] == "$: " then Some(Segments(s[1..|s| - 3]))
    else None
  }

  /** The prompt shows the directory faithfully: it reads back to the
      directory it was made from. */
  lemma ReadPromptOfPrompt(dir: Path)
    requires ValidPath(dir)
    ensures ReadPrompt(Prompt(dir)) == Some(dir)
  {
    var s := Prompt(dir);
    assert s[1..|s| - 3] == Render(dir);
    SegmentsOfRender(dir);
  }
}

=== FILE: terminal.dfy ===
/** One read event of the terminal server as a pure step: the current
    directory, the drained text and the filesystem go in; the new current
    directory, everything written back and whether the connection was closed
    come out. The current directory is one server-wide value: every
    connection's step reads it and a `cd` on any connection changes it for
    all. */
module Terminal {
  import opened Optional
  import opened Text
  import opened Paths
  import opened FileSystem
  import opened Protocol

  /** What one read event delivers: the drained text, or end of stream. */
  datatype Input = Received(text: string) | EndOfStream

  /** The exceptions that escape the read handler and end the server loop. */
  datatype Fault =
    | InvalidPath  // the `cd` or `cat` argument holds a NUL character
    | CannotList   // the current directory cannot be listed

  datatype Outcome =
    | Served(dir: Path, output: string, closed: bool)
    | Crashed(fault: Fault)

  /** What a command handler wrote and the current directory it left. */
  datatype Effect =
    | Effect(dir: Path, output: string)
    | Raised(fault: Fault)

  /** `ls`: each entry name of the current directory followed by a newline,
      in the order the filesystem lists them. */
  function ListDirectory(dir: Path, fs: Tree): (e: Effect)
    ensures e.Effect? <==> IsDirectory(fs, dir)
    ensures e.Effect? ==> e.dir == dir
    ensures e.Effect? ==> e.output == Lines(NodeAt(fs, dir).value.entries)
    ensures e.Raised? ==> e.fault == CannotList
  {
    match NodeAt(fs, dir)
    case Some(Directory(entries)) => Effect(dir, Lines(entries))
    case _ => Raised(CannotList)
  }

  /** `cd <arg>`: moves to the normalized resolved path when the argument is
      `..` or names a directory; otherwise reports the argument and stays. */
  function ChangeDirectory(dir: Path, arg: string, fs: Tree): (e: Effect)
    ensures e.Raised? <==> Nul in arg
    ensures e.Raised? ==> e.fault == InvalidPath
    ensures e.Effect? ==>
              (e.output == "" <==> arg == Parent || IsDirectory(fs, Resolve(dir, arg).value))
    ensures e.Effect? && e.output == "" ==> e.dir == Normalize(Resolve(dir, arg).value)
    ensures e.Effect? && e.output == "" && arg != Parent ==> e.dir in fs && fs[e.dir].Directory?
    ensures e.Effect? && e.output != "" ==> e.dir == dir && e.output == arg + NotADirectory
  {
    match Resolve(dir, arg)
    case None => Raised(InvalidPath)
    case Some(p) =>
      if arg == Parent || IsDirectory(fs, p) then
        LookupNormalizes(fs, p);
        Effect(Normalize(p), "")
      else Effect(dir, arg + NotADirectory)
  }

  /** `cat <arg>`: the lines of the regular file the argument resolves to,
      each followed by a newline; otherwise reports the argument. The
      directory never changes. */
  function ShowFile(dir: Path, arg: string, fs: Tree): (e: Effect)
    ensures e.Raised? <==> Nul in arg
    ensures e.Raised? ==> e.fault == InvalidPath
    ensures e.Effect? ==> e.dir == dir
    ensures e.Effect? && IsFile(fs, Resolve(dir, arg).value) ==>
              var c := Normalize(Resolve(dir, arg).value);
              c in fs && fs[c].RegularFile? && e.output == Lines(fs[c].lines)
    ensures e.Effect? && !IsFile(fs, Resolve(dir, arg).value) ==> e.output == arg + NotAFile
  {
    match Resolve(dir, arg)
    case None => Raised(InvalidPath)
    case Some(p) =>
      if IsFile(fs, p) then
        LookupNormalizes(fs, p);
        Effect(dir, Lines(NodeAt(fs, p).value.lines))
      else Effect(dir, arg + NotAFile)
  }

  /** A handler's effect followed by the prompt for the directory it left. */
  function Finish(e: Effect): (o: Outcome)
    ensures e.Raised? ==> o == Crashed(e.fault)
    ensures e.Effect? ==> o.Served? && o.dir == e.dir && !o.closed
    ensures e.Effect? ==> e.output <= o.output && EndsWith(o.output, Prompt(e.dir))
    ensures e.Effect? ==> |o.output| == |e.output| + |Prompt(e.dir)|
  {
    match e
    case Raised(f) => Crashed(f)
    case Effect(d, out) =>
      var s := out + Prompt(d);
      assert s[|s| - |Prompt(d)|..] == Prompt(d);
      Served(d, s, false)
  }

  /** The read handler: end of stream closes the connection silently;
      otherwise the line breaks are stripped, the message selects at most one
      command, and every command but `exit` is followed by the prompt. */
  function Step(dir: Path, input: Input, fs: Tree): (o: Outcome)
    ensures input.EndOfStream? ==> o == Served(dir, "", true)
    ensures o.Served? && !o.closed ==> EndsWith(o.output, Prompt(o.dir))
    ensures o.Served? && o.closed ==> o.dir == dir
    ensures o.Served? && o.dir != dir ==> input.Received? && CdPrefix <= StripLineBreaks(input.text)
    ensures input.Received? && StripLineBreaks(input.text) == ExitCommand ==> o == Served(dir, Farewell, true)
    ensures input.Received? && o.Served? && o.closed ==> StripLineBreaks(input.text) == ExitCommand
    ensures input.Received? && Classify(StripLineBreaks(input.text)) == NoCommand ==>
              o == Served(dir, Prompt(dir), false)
    ensures o == Crashed(CannotList) <==>
              input.Received? && StripLineBreaks(input.text) == LsCommand && !IsDirectory(fs, dir)
    ensures o == Crashed(InvalidPath) <==>
              && input.Received?
              && var c := Classify(StripLineBreaks(input.text));
              (c.Cd? || c.Cat?) && Nul in c.arg
  {
    match input
    case EndOfStream => Served(dir, "", true)
    case Received(text) =>
      match Classify(StripLineBreaks(text))
      case Ls => Finish(ListDirectory(dir, fs))
      case Cd(arg) => Finish(ChangeDirectory(dir, arg, fs))
      case Cat(arg) => Finish(ShowFile(dir, arg, fs))
      case Exit => Served(dir, Farewell, true)
      case NoCommand => Served(dir, Prompt(dir), false)
  }

  /** A new connection is greeted with the welcome line and the prompt of
      the current directory; accepting changes nothing. */
  function Accept(dir: Path): (o: Outcome)
    ensures o.Served? && o.dir == dir && !o.closed
    ensures Welcome <= o.output && EndsWith(o.output, Prompt(dir))
    ensures |o.output| == |Welcome| + |Prompt(dir)|
  {
    var s := Welcome + Prompt(dir);
    assert s[|s| - |Prompt(dir)|..] == Prompt(dir);
    Served(dir, s, false)
  }

  /** `cd name` into a subdirectory followed by `cd ..` brings a normal
      current directory back to where it was, each step answering with the
      prompt alone. */
  lemma CdIntoThenBack(dir: Path, name: Name, fs: Tree)
    requires WellFormed(fs) && dir + [name] in fs && fs[dir + [name]].Directory?
    requires name != Current && name != Parent && Nul !in name
    requires IsName(name) && forall i :: 0 <= i < |name| ==> name[i] !in LineBreaks
    ensures Step(dir, Received(CdPrefix + name), fs) == Served(dir + [name], Prompt(dir + [name]), false)
    ensures Step(dir + [name], Received(CdPrefix + Parent), fs) == Served(dir, Prompt(dir), false)
  {
    LookupOfKey(fs, dir + [name]);
    assert IsNormal(dir) by {
      assert forall i :: 0 <= i < |dir| ==> dir[i] == (dir + [name])[i];
    }
    CdDown(dir, name, fs);
    CdUp(dir, name, fs);
  }

  /** `cd name` into an existing subdirectory: silent, one level down. */
  lemma CdDown(dir: Path, name: Name, fs: Tree)
    requires IsNormal(dir) && IsName(name) && name != Current && name != Parent && Nul !in name
    requires forall i :: 0 <= i < |name| ==> name[i] !in LineBreaks
    requires IsDirectory(fs, dir + [name])
    ensures Step(dir, Received(CdPrefix + name), fs) == Served(dir + [name], Prompt(dir + [name]), false)
  {
    StripKeepsPlain(CdPrefix + name);
    CdDispatch(dir, name, CdPrefix + name, fs);
    CdIntoName(dir, name, fs);
    assert "" + Prompt(dir + [name]) == Prompt(dir + [name]);
  }

  /** `cd ..` from `dir/name`: silent, back to `dir`. */
  lemma CdUp(dir: Path, name: Name, fs: Tree)
    requires IsNormal(dir) && IsName(name) && name != Current && name != Parent
    ensures Step(dir + [name], Received(CdPrefix + Parent), fs) == Served(dir, Prompt(dir), false)
  {
    StripKeepsPlain(CdPrefix + Parent);
    CdDispatch(dir + [name], Parent, CdPrefix + Parent, fs);
    CdUpFromName(dir, name, fs);
    assert "" + Prompt(dir) == Prompt(dir);
  }

  /** `cd .` in an existing directory of a well-formed filesystem is silent
      and stays where it is. */
  lemma CdCurrentStays(dir: Path, fs: Tree)
    requires WellFormed(fs) && dir in fs && fs[dir].Directory?
    ensures ChangeDirectory(dir, Current, fs) == Effect(dir, "")
  {
    SegmentsOfName(Current);
    assert Resolve(dir, Current) == Some(dir + [Current]);
    CurrentIsDirectory(fs, dir);
    NormalizeDropsCurrent(dir);
    NormalizeFixesNormal(dir);
  }

  /** A message `cd <arg>` runs the `cd` handler on exactly `arg`. */
  lemma CdDispatch(dir: Path, arg: string, text: string, fs: Tree)
    requires StripLineBreaks(text) == CdPrefix + arg
    ensures Step(dir, Received(text), fs) == Finish(ChangeDirectory(dir, arg, fs))
  {
    assert (CdPrefix + arg)[|CdPrefix|..] == arg;
  }

  lemma CdIntoName(dir: Path, name: Name, fs: Tree)
    requires IsNormal(dir) && IsName(name) && name != Current && name != Parent && Nul !in name
    requires IsDirectory(fs, dir + [name])
    ensures ChangeDirectory(dir, name, fs) == Effect(dir + [name], "")
  {
    DownThenUp(dir, name);
    SegmentsOfName(name);
    assert Resolve(dir, name) == Some(dir + [name]);
  }

  lemma CdUpFromName(dir: Path, name: Name, fs: Tree)
    requires IsNormal(dir) && IsName(name) && name != Current && name != Parent
    ensures ChangeDirectory(dir + [name], Parent, fs) == Effect(dir, "")
  {
    DownThenUp(dir, name);
    SegmentsOfName(Parent);
    assert Resolve(dir + [name], Parent) == Some(dir + [name] + [Parent]);
  }

  /** The only command that can leave `dir` is `cd`, and a successful `cd`
      whose argument is not `..` lands on the normal form of the resolved
      path, which the filesystem holds as a directory. */
  lemma CdSucceeds(dir: Path, text: string, fs: Tree)
    requires CdPrefix <= StripLineBreaks(text)
    requires var arg := StripLineBreaks(text)[|CdPrefix|..];
             Nul !in arg && arg != Parent && IsDirectory(fs, Resolve(dir, arg).value)
    ensures var p := Resolve(dir, StripLineBreaks(text)[|CdPrefix|..]).value;
            && Step(dir, Received(text), fs) == Served(Normalize(p), Prompt(Normalize(p)), false)
            && Normalize(p) in fs && fs[Normalize(p)].Directory?
  {
  }

  /** A failed `cd` reports exactly the argument and keeps the directory. */
  lemma CdFails(dir: Path, text: string, fs: Tree)
    requires CdPrefix <= StripLineBreaks(text)
    requires var arg := StripLineBreaks(text)[|CdPrefix|..];
             Nul !in arg && arg != Parent && !IsDirectory(fs, Resolve(dir, arg).value)
    ensures Step(dir, Received(text), fs)
            == Served(dir, StripLineBreaks(text)[|CdPrefix|..] + NotADirectory + Prompt(dir), false)
  {
  }

  /** `cat` on a regular file writes the file's lines, each followed by a
      newline, then the prompt; the directory stays. */
  lemma CatShowsFile(dir: Path, text: string, fs: Tree)
    requires CatPrefix <= StripLineBreaks(text)
    requires var arg := StripLineBreaks(text)[|CatPrefix|..];
             Nul !in arg && IsFile(fs, Resolve(dir, arg).value)
    ensures var c := Normalize(Resolve(dir, StripLineBreaks(text)[|CatPrefix|..]).value);
            && c in fs && fs[c].RegularFile?
            && Step(dir, Received(text), fs) == Served(dir, Lines(fs[c].lines) + Prompt(dir), false)
  {
    var arg := StripLineBreaks(text)[|CatPrefix|..];
    assert Classify(StripLineBreaks(text)) == Cat(arg);
    var e := ShowFile(dir, arg, fs);
    var c := Normalize(Resolve(dir, arg).value);
    assert c in fs && fs[c].RegularFile? && e == Effect(dir, Lines(fs[c].lines));
  }

  /** `cat` on anything but a regular file reports exactly the argument. */
  lemma CatRejectsNonFile(dir: Path, text: string, fs: Tree)
    requires CatPrefix <= StripLineBreaks(text)
    requires var arg := StripLineBreaks(text)[|CatPrefix|..];
             Nul !in arg && !IsFile(fs, Resolve(dir, arg).value)
    ensures Step(dir, Received(text), fs)
            == Served(dir, StripLineBreaks(text)[|CatPrefix|..] + NotAFile + Prompt(dir), false)
  {
  }

  /** `ls` in a directory of a well-formed filesystem writes that
      directory's entries, one per line, in the listed order, then the
      prompt; when no entry name holds a newline, reading the lines back
      gives the entries. */
  lemma LsListsEntries(dir: Path, text: string, fs: Tree)
    requires WellFormed(fs) && dir in fs && fs[dir].Directory?
    requires StripLineBreaks(text) == LsCommand
    ensures Step(dir, Received(text), fs) == Served(dir, Lines(fs[dir].entries) + Prompt(dir), false)
    ensures (forall i :: 0 <= i < |fs[dir].entries| ==> '\n' !in fs[dir].entries[i]) ==>
              SplitLines(Lines(fs[dir].entries)) == fs[dir].entries
  {
    LookupOfKey(fs, dir);
    if forall i :: 0 <= i < |fs[dir].entries| ==> '\n' !in fs[dir].entries[i] {
      SplitLinesOfLines(fs[dir].entries);
    }
  }

  /** In a well-formed filesystem the current directory stays an existing
      directory: no step moves it elsewhere, so `ls` never fails; the only
      way to stop the server is a NUL character in an argument. */
  lemma StepKeepsDirectory(dir: Path, input: Input, fs: Tree)
    requires WellFormed(fs) && dir in fs && fs[dir].Directory?
    ensures Step(dir, input, fs).Crashed? ==> Step(dir, input, fs).fault == InvalidPath
    ensures Step(dir, input, fs).Served? ==>
              Step(dir, input, fs).dir in fs && fs[Step(dir, input, fs).dir].Directory?
  {
    match input
    case EndOfStream =>
    case Received(text) =>
      var o := Step(dir, input, fs);
      match Classify(StripLineBreaks(text))
      case Ls =>
        LookupOfKey(fs, dir);
        assert o == Finish(ListDirectory(dir, fs));
      case Cd(arg) =>
        assert o == Finish(ChangeDirectory(dir, arg, fs));
        if arg == Parent {
          ParentStaysDirectory(dir, fs);
        }
      case Cat(arg) =>
        assert o == Finish(ShowFile(dir, arg, fs));
      case Exit =>
      case NoCommand =>
  }

  /** `cd ..` from an existing directory reaches an existing directory. */
  lemma ParentStaysDirectory(dir: Path, fs: Tree)
    requires WellFormed(fs) && dir in fs && fs[dir].Directory?
    ensures var e := ChangeDirectory(dir, Parent, fs);
            e.Effect? && e.dir in fs && fs[e.dir].Directory?
  {
    SegmentsOfName(Parent);
    assert Resolve(dir, Parent) == Some(dir + [Parent]);
    NormalizeParent(dir);
    if dir != [] {
      ParentIsDirectory(fs, dir);
    }
  }

  /** Line breaks do not matter: a command sent with a trailing CR LF gives
      the same step as the bare command. */
  lemma LineEndingIgnored(dir: Path, text: string, fs: Tree)
    ensures Step(dir, Received(text + "\r\n"), fs) == Step(dir, Received(text), fs)
  {
    StripDropsLineEnding(text);
  }
}

=== FILE: text.dfy ===
/** Character-level operations on strings shared by the command protocol and
    the path model: removing characters, finding a separator, splitting once,
    and writing a sequence of lines each followed by a newline. */
module Text {

  /** `s` with every character that belongs to `drop` removed. */
  function Remove(s: string, drop: set<char>): (r: string)
    ensures |r| <= |s|
    ensures forall i :: 0 <= i < |r| ==> r[i] !in drop
  {
    if s == [] then []
    else if s[0] in drop then Remove(s[1..], drop)
    else [s[0]] + Remove(s[1..], drop)
  }

  /** Every character outside `drop` occurs as often after removal as before. */
  lemma {:induction false} RemoveKeepsOthers(s: string, drop: set<char>, c: char)
    requires c !in drop
    ensures multiset(Remove(s, drop))[c] == multiset(s)[c]
  {
    if s != [] {
      assert s == [s[0]] + s[1..];
      RemoveKeepsOthers(s[1..], drop, c);
    }
  }

  /** Removal works piecewise: the kept characters of `a + b` are the kept
      characters of `a` followed by those of `b`, so the order is preserved. */
  lemma {:induction false} RemoveAppend(a: string, b: string, drop: set<char>)
    ensures Remove(a + b, drop) == Remove(a, drop) + Remove(b, drop)
  {
    if a == [] {
      assert a + b == b;
    } else {
      assert (a + b)[0] == a[0];
      assert (a + b)[1..] == a[1..] + b;
      RemoveAppend(a[1..], b, drop);
    }
  }

  /** A string with no character of `drop` is left as it is. */
  lemma {:induction false} RemoveNothing(s: string, drop: set<char>)
    requires forall i :: 0 <= i < |s| ==> s[i] !in drop
    ensures Remove(s, drop) == s
  {
    if s != [] {
      RemoveNothing(s[1..], drop);
    }
  }

  /** Removing one set of characters and then another is the same as
      removing their union in one pass. */
  lemma {:induction false} RemoveTwice(s: string, first: set<char>, second: set<char>)
    ensures Remove(Remove(s, first), second) == Remove(s, first + second)
  {
    if s != [] {
      RemoveTwice(s[1..], first, second);
      if s[0] !in first {
        assert ([s[0]] + Remove(s[1..], first))[0] == s[0];
        assert ([s[0]] + Remove(s[1..], first))[1..] == Remove(s[1..], first);
      }
    }
  }

  /** `s` ends with `suffix`. */
  predicate EndsWith(s: string, suffix: string) {
    |suffix| <= |s| && s[|s| - |suffix|..] == suffix
  }

  /** The index of the first `c` in `s`, or `|s|` when there is none. */
  function IndexOrEnd(s: string, c: char): (i: nat)
    ensures i <= |s|
    ensures forall j :: 0 <= j < i ==> s[j] != c
    ensures i < |s| ==> s[i] == c
    ensures i == |s| <==> c !in s
  {
    if s == [] then 0
    else if s[0] == c then 0
    else 1 + IndexOrEnd(s[1..], c)
  }

  /** Splits `s` at the first `sep` into at most two parts, the second part
      keeping every later `sep`; without a `sep` the whole string is the only
      part. */
  function SplitOnce(s: string, sep: char): (parts: seq<string>)
    ensures sep !in s ==> parts == [s]
    ensures sep in s ==> |parts| == 2 && sep !in parts[0] && parts[0] + [sep] + parts[1] == s
  {
    var i := IndexOrEnd(s, sep);
    if i == |s| then [s]
    else
      assert s == s[..i] + [sep] + s[i + 1..];
      [s[..i], s[i + 1..]]
  }

  /** When `s` starts with `head` followed by `sep` and `head` holds no `sep`,
      the part after the split is everything after that first `sep`, further
      separators included. */
  lemma SplitOnceAfterHead(s: string, head: string, sep: char)
    requires head + [sep] <= s
    requires sep !in head
    ensures SplitOnce(s, sep) == [head, s[|head| + 1..]]
  {
    assert s[|head|] == sep;
    var i := IndexOrEnd(s, sep);
    assert i == |head|;
    assert s[..i] == head;
  }

  /** Every string of `xs`, each followed by a newline. */
  function Lines(xs: seq<string>): (r: string)
    ensures |r| >= |xs|
    ensures xs != [] ==> r[|r| - 1] == '\n'
  {
    if xs == [] then ""
    else xs[0] + "\n" + Lines(xs[1..])
  }

  /** Reads newline-terminated lines back; a final piece without a newline
      is returned as a last line. */
  function SplitLines(s: string): (r: seq<string>)
    ensures forall i :: 0 <= i < |r| ==> '\n' !in r[i]
    decreases |s|
  {
    if s == [] then []
    else
      var i := IndexOrEnd(s, '\n');
      if i == |s| then [s] else [s[..i]] + SplitLines(s[i + 1..])
  }

  /** `Lines` loses nothing: reading the output back line by line gives the
      original strings, in order, as long as none holds a newline itself. */
  lemma {:induction false} SplitLinesOfLines(xs: seq<string>)
    requires forall i :: 0 <= i < |xs| ==> '\n' !in xs[i]
    ensures SplitLines(Lines(xs)) == xs
  {
    if xs != [] {
      var s := Lines(xs);
      assert s == xs[0] + "\n" + Lines(xs[1..]);
      SplitOnceAfterHead(s, xs[0], '\n');
      var i := IndexOrEnd(s, '\n');
      assert i == |xs[0]|;
      assert s[..i] == xs[0];
      assert s[i + 1..] == Lines(xs[1..]);
      SplitLinesOfLines(xs[1..]);
    }
  }

  /** The strings of `xs` written one after another. */
  function Concat(xs: seq<string>): string {
    if xs == [] then "" else xs[0] + Concat(xs[1..])
  }
}
